=== FILE: README.md ===
# Emergency-alert app: a verified model of its core logic

The application lets a member of the public raise an alert for a chosen
category of responder ("male", "female" or "trans"). It shares their location
and phone number, and a partner of that category can accept or decline. It
also has a wallet with deposits and withdrawals and a signup form. Most of the
code is UI. This project models its four pieces of real logic as pure
transition functions over immutable records, and proves properties about
them in Dafny:

- `wallet.dfy` (module `Wallet`) models the wallet screen:
  - the amount rule: a whole number of at least 1;
  - the atomic read-modify-write run inside the store transaction;
  - the client flow around it: choose deposit or withdraw, stage a deposit,
    finalize it with a payment method, or withdraw at once;
  - the cached balance, which is updated only after a commit.
- `alerter.dfy` (module `Alerter`) models the requester screen:
  - its status machine, whose reachable states are idle, sent and accepted;
  - the phone rule;
  - the alert record written on submit;
  - the insert, the subscription to the record, cancel and reset.
  The alerts collection is a map next to the screen state. Writes by other
  clients are environment events.
- `responder.dfy` (module `Responder`) models the responder simulation:
  - the idle, routing, received and accepted states;
  - the listener that filters alerts by the partner's category;
  - the demo timer and the routing timer, each an "armed" flag plus a firing
    event;
  - accept, decline and reset, and the listener's registration and cleanup.
  The listener that the view keeps in a module-level variable is a field of
  the state here. In the code, only the routing timer calls that listener;
  the event `IncomingAlert` stands for a call of it by an alert source.
- `signup.dfy` (module `Signup`) models the signup schema:
  - the field rules;
  - the cross-field rule "a partner names a partner category", reported on
    the partner-category field.
- `common.dfy` (module `Common`) holds the shared vocabulary:
  - `Option` and `Result`;
  - the one `Category` enumeration that all three screens use;
  - `UserType`;
  - the `User` record: the identity provider's id and phone number, plus the
    optional `userType`, `partnerType` and `walletBalance` profile fields
    that the screens read;
  - `Utf16Length`, the JavaScript string length that the form rules
    measure.

Each screen has a `Step` function. It takes one event, and a control that is
not rendered in the current view does nothing. `Run` folds `Step` over a
sequence of events. Each screen also has an invariant lemma showing that
every run keeps the screen's invariant.

Behaviour of the code that the model keeps as written:

- **The responder accepts purely locally.** Accept only changes the
  responder screen's own status. Nothing writes `status = 'accepted'` to the
  store, and there is no accept transaction.
- **The requester states `sending` and `error` are declared but never
  entered.** `Alerter.RunPreservesInv` proves that they are unreachable.
- **Routing is driven by timers.** A demo timer delivers the first alert
  after the listener is registered, and a routing timer reopens the dialog
  after a decline.
- **Cancel does not wait for a pending insert.** Cancel deletes only the
  record whose id is already known. If the user cancels while the insert is
  still pending, and the insert then succeeds, the record stays `pending` in
  the store and the idle screen keeps following it
  (`Alerter.CancelDuringInsertLeavesRecord`). If that record is later
  accepted, the screen reaches "accepted" without sent data. That view draws
  nothing, and no event moves it again
  (`Alerter.AcceptedWithoutDataIsFinal`).

## Model

| member | source | states |
|---|---|---|
| `Common.ParseCategory` | src/components/alerter-view.tsx:36 | The category enumeration: a string reads as a category iff it is one of "male", "female", "trans", and it reads as exactly the category spelled that way (both directions). |
| `Common.ParseUserType` | src/app/signup/page.tsx:38-40 | A string reads as a user type iff it is "public" or "partner", and it reads as exactly the type spelled that way. |
| `Common.Utf16Length` | src/app/signup/page.tsx:37 | The string length used by the `min`/`max` rules counts UTF-16 code units: between the character count and twice it, and 0 only for the empty string. |
| `Common.Utf16LengthOfBmp` | src/components/alerter-view.tsx:47-52 | On text without characters beyond the Basic Multilingual Plane, that length equals the character count. |
| `Wallet.AmountIssues` | src/app/wallet/page.tsx:26-32 | Each of the three amount checks reports its issue exactly when it fails: not whole, not positive, below 1. |
| `Wallet.ValidateAmount` | src/app/wallet/page.tsx:26-32 | An amount is accepted iff it is a whole number ≥ 1; the accepted value is that number; a refusal carries at least one issue. |
| `Wallet.TransactionBody` | src/app/wallet/page.tsx:75-94 | Fails with "User document not found." iff the document is missing. Fails with "Insufficient funds for withdrawal." iff it is a withdrawal and the balance (missing read as 0) is below the amount. Otherwise it writes old balance + amount for a deposit, or old − amount for a withdrawal, and changes no other field and no other user's document. |
| `Wallet.WithdrawWholeBalance` | src/app/wallet/page.tsx:86-93 | Withdrawing exactly the balance succeeds and leaves 0. |
| `Wallet.TransactionKeepsNonNegative` | src/app/wallet/page.tsx:72-94 | If every stored balance is non-negative, an accepted step with a non-negative amount keeps every stored balance non-negative. |
| `Wallet.DepositThenWithdraw` | src/app/wallet/page.tsx:84-93 | From a non-negative balance, withdrawing what was just deposited succeeds and restores the store. The balance comes back as an explicit value. |
| `Wallet.ProcessTransaction` | src/app/wallet/page.tsx:69-115 | Without a signed-in user, nothing changes at all. Otherwise the kind and the staged amount end cleared. The transaction is aborted exactly when the store rejects it for a reason of its own, and then the store and the cached balance are unchanged. On a refusal by the body, the store and the cached balance are unchanged and the refusal is the body's error. On a commit, the store is the body's result and the cache moves by exactly as much as the stored balance. |
| `Wallet.HandleDepositInitiation` | src/app/wallet/page.tsx:58-60 | Initiating a deposit only stages the amount: the store, the user and the chosen kind are untouched. |
| `Wallet.HandleFinalizeDeposit` | src/app/wallet/page.tsx:62-67 | Finalizing with nothing staged is a no-op. With an amount staged, it runs that amount as a deposit transaction and ends with the kind and the staged amount cleared; when the store is reachable and the document exists, the stored balance grows by the staged amount. |
| `Wallet.HandleWithdrawal` | src/app/wallet/page.tsx:51-56 | Without a user nothing happens. With one, it runs the amount as a withdrawal transaction and ends with the kind and the staged amount cleared; when the store is reachable and the balance covers the amount, the stored balance drops by the amount. |
| `Wallet.OnSubmit` | src/app/wallet/page.tsx:117-123 | A validated amount with no kind chosen does nothing. For a deposit it is only staged and nothing is written. For a withdrawal without a signed-in user nothing happens; with one it runs as a withdrawal transaction. |
| `Wallet.Step` | src/app/wallet/page.tsx:127-214 | The kind buttons choose a kind while none is chosen; Cancel under the form clears the kind unless the deposit dialog covers it; a valid amount submitted on the live form goes to the submit handler, an invalid one or a covered form does nothing; picking a payment method finalizes the staged deposit; closing the dialog drops the staged amount. No event adds or removes a document, and only submitting or finalizing writes, never without a user. |
| `Wallet.StepPreservesInv` | src/app/wallet/page.tsx:142-210 | With each withdrawal or finalization run as one event, every screen event keeps the invariant: a staged amount is ≥ 1 and belongs to a deposit, no stored balance is negative, and the cached balance equals the stored one. No event adds or removes a document or touches another user's document. Overlapping transactions break the cache part (see `Wallet.OverlappingWithdrawalsDesyncCache`). |
| `Wallet.RunPreservesInv` | src/app/wallet/page.tsx:51-123 | Every sequence of screen events keeps that invariant and the set of documents. |
| `Wallet.StaleCacheStaysStale` | src/app/wallet/page.tsx:96-97 | The cache is moved by the amount, not read back: every commit keeps the difference between the cached and the stored balance, so a cache that was stale stays exactly as stale. |
| `Wallet.OverlappingWithdrawalsDesyncCache` | src/app/wallet/page.tsx:51-123 | The submit handler does not wait for a withdrawal, so a second withdrawal of the same amount can start from the same screen state while the first is running. From a coherent cache over balance B ≥ 2a, both commit: the store ends at B − 2a, the cache at B − a, and the cache no longer matches the store. |
| `Wallet.TwoStepDeposit` | src/app/wallet/page.tsx:142-213 | Through the screen, choosing Deposit, submitting a whole amount x and picking a payment method grows the stored balance and the cache by x and clears the kind and the staged amount. |
| `Wallet.WithdrawThroughScreen` | src/app/wallet/page.tsx:51-123 | Through the screen, choosing Withdraw and submitting a whole amount x the balance covers lowers the stored balance and the cache by x and clears the kind and the staged amount. |
| `Alerter.ValidatePhone` | src/components/alerter-view.tsx:47-52 | A phone is accepted iff its length is between 10 and 20 inclusive. Shorter gives "too short", longer gives "too long". The accepted value is the input. |
| `Alerter.PhoneRuleOnBmpText` | src/components/alerter-view.tsx:47-52 | For ordinary text the phone rule is 10 ≤ character count ≤ 20. |
| `Alerter.NewAlertRecord` | src/components/alerter-view.tsx:152-159 | The inserted record is `pending`, carries the requester's uid and the store's timestamp, and shows exactly the submitted phone, location and category. |
| `Alerter.ResetSimulation` | src/components/alerter-view.tsx:199-205 | Reset returns to idle and forgets the sent data, the category, the location and the followed id; the user, the dialog flag and a pending insert are kept. |
| `Alerter.HandleSendAlertClick` | src/components/alerter-view.tsx:97-133 | With no category chosen, or without a successful position fix (unsupported or failed), nothing changes. A fix records the location and opens the dialog, and nothing else changes. |
| `Alerter.HandleFormSubmit` | src/components/alerter-view.tsx:135-150 | An invalid phone, or a missing location, category or user, changes nothing. Otherwise the status becomes `sent`, the screen shows {phone, location, category}, the dialog closes, and an insert of exactly that data under the user's uid is pending. |
| `Alerter.InsertSucceeded` | src/components/alerter-view.tsx:151-164 | With no insert pending, nothing happens. Otherwise the store gains exactly one record under the new id: pending, carrying the requester's uid, the store's timestamp and the submitted phone, location and category; every other record is kept. The screen follows the new id, the submitting flag drops and the pending insert is gone; the status, the data on screen and every other field stay as they were, so a screen cancelled meanwhile stays idle. |
| `Alerter.InsertFailed` | src/components/alerter-view.tsx:165-176 | A failed insert writes nothing and returns to idle, with the data, category, location and followed id cleared and the submitting flag down; the user and the dialog flag are kept. With no insert pending, nothing happens. |
| `Alerter.OnSnapshot` | src/components/alerter-view.tsx:76-94 | Without a followed id there is no subscription. A record reading "accepted" moves the screen to `accepted`, and accepted is kept. A present record not reading "accepted" changes nothing. A deleted record resets the screen unless it is already `accepted`, in which case nothing changes. |
| `Alerter.CancelAlert` | src/components/alerter-view.tsx:179-197 | Cancel always ends idle with no followed id. It deletes the followed record only when there is one and the delete succeeds; otherwise the store is unchanged. |
| `Alerter.Step` | src/components/alerter-view.tsx:207-355 | Each on-screen control runs its handler (category choice, SEND ALERT, closing the dialog, submit, cancel with its delete, End Alert as reset); an off-screen control does nothing, and the open modal dialog covers the category buttons and SEND ALERT. Insert answers run their handlers, a snapshot runs the subscription handler on the current store, and other clients' accepts and deletes change only the store. The user never changes. |
| `Alerter.InitialSatisfiesInv` | src/components/alerter-view.tsx:62-68 | The freshly mounted screen satisfies the invariant. |
| `Alerter.StepPreservesInv` | src/components/alerter-view.tsx:97-205 | Every event keeps the invariant: the status is never `sending` or `error`; the submitting flag means an insert is pending; that insert carries the data on screen under the user's uid; sent implies data; accepted implies a followed id. The screen's own events never rewrite a record, and any new record is pending and shows the submitted data. |
| `Alerter.RunPreservesInv` | src/components/alerter-view.tsx:35 | Along every run, the status stays within idle, sent and accepted. |
| `Alerter.AcceptedIgnoresSnapshots` | src/components/alerter-view.tsx:86-90 | Once accepted, no snapshot changes the screen, whether the record is present or deleted. |
| `Alerter.CancelIdempotent` | src/components/alerter-view.tsx:179-197 | A second cancel leaves screen and store as the first left them. |
| `Alerter.CancelDuringInsertLeavesRecord` | src/components/alerter-view.tsx:145-197 | Choose, fix, submit, cancel, then a successful insert: the screen is idle yet follows the new id, and the record stays pending in the store under the user's uid. |
| `Alerter.AcceptedWithoutDataIsFinal` | src/components/alerter-view.tsx:308-355 | An accepted screen without sent data draws no control, and no event changes it. |
| `Alerter.AcceptThroughScreen` | src/components/alerter-view.tsx:76-94 | While a sent alert's record is followed, another client accepting it and the next snapshot show `accepted` with the sent data kept; End Alert then resets the screen. |
| `Alerter.CancelThroughScreen` | src/components/alerter-view.tsx:179-197 | Cancel on the sent screen, with a successful delete, removes exactly the followed record from the store and leaves the screen idle. |
| `Responder.SetStatus` | src/components/responder-view.tsx:81-93 | Entering `routing` arms the routing timer and leaving it disarms it. Setting the same status re-runs nothing. |
| `Responder.RegisterListener` | src/components/responder-view.tsx:51-70 | A partner gets a listener that takes exactly the alerts of their own category, and the demo timer is armed. For anyone else nothing changes. The status and the user are untouched. |
| `Responder.CleanupListener` | src/components/responder-view.tsx:73-76 | Cleanup leaves no listener and no demo timer, and keeps the status, the user and the routing timer. |
| `Responder.Mount` | src/components/responder-view.tsx:38-78 | The mounted screen is idle with no routing timer, and it has a listener iff the user is a partner. |
| `Responder.HandleAlert` | src/components/responder-view.tsx:54-58 | An alert of the listener's category opens the dialog, and a pending reroute is dropped. An alert of another category changes nothing. |
| `Responder.OnIncomingAlert` | src/components/responder-view.tsx:36 | With no listener, or an alert of another category, nothing changes. A matching alert goes through the status setter to `received`; the user, the listener, the demo timer and the mounted flag are kept. |
| `Responder.OnDemoTimer` | src/components/responder-view.tsx:65-69 | An unarmed demo timer does nothing. An armed one fires once; it opens the dialog when the partner has a category that their handler takes, and without a listener or a category it only disarms. The user, the listener and the mounted flag are kept. |
| `Responder.OnRoutingTimer` | src/components/responder-view.tsx:81-90 | An unarmed routing timer does nothing. An armed one fires once; from `routing` it moves to `received` iff a listener is registered and the user has a category, and otherwise the status stays. The user, the listener, the demo timer and the mounted flag are kept. |
| `Responder.OnUserChanged` | src/components/responder-view.tsx:51-93 | The same user re-runs nothing. A new user is stored, and after the listener effect re-runs a listener and an armed demo timer exist iff the new user is a partner. The status and the mounted flag are untouched. When the category changes, the routing timer is restarted iff the screen is routing; when it does not, the timer is left as it was. |
| `Responder.Step` | src/components/responder-view.tsx:116-219 | An unmounted screen takes no event. On a mounted one, accept and decline act from `received` only and reset from `accepted` only, each through the status setter; alerts, both timers and user changes run their handlers. Unmounting leaves no listener and no timer. Only a user change changes the user. |
| `Responder.MountSatisfiesInv` | src/components/responder-view.tsx:38-78 | The mounted screen satisfies the invariant. |
| `Responder.StepPreservesInv` | src/components/responder-view.tsx:38-114 | Every event keeps the invariant: a listener exists exactly while a mounted screen shows a partner, and it captured that partner's category; the demo timer needs a listener; the routing timer is armed only in `routing`. |
| `Responder.RunPreservesInv` | src/components/responder-view.tsx:38-114 | Every sequence of events keeps that invariant. |
| `Responder.IncomingAlertMatchesCategory` | src/components/responder-view.tsx:54-58 | On a reachable screen, an incoming alert opens the dialog iff the user is a partner of the alert's category; otherwise nothing changes. |
| `Responder.NonPartnerIgnoresAlerts` | src/components/responder-view.tsx:51-60 | For a user who is not a partner, no alert and no timer changes the status, and no listener exists. |
| `Responder.ButtonsMoveAsLabelled` | src/components/responder-view.tsx:95-112 | From `received`, accept moves to `accepted` and decline moves to `routing` with the routing timer armed. From `accepted`, reset returns to `idle`. |
| `Responder.AcceptIsLocal` | src/components/responder-view.tsx:95-101 | Accept changes only the local status (and the routing timer). The listener and the user stay, and nothing is written anywhere. |
| `Responder.NoListenerNoDelivery` | src/components/responder-view.tsx:81-90 | With no listener registered, no sequence of incoming alerts and routing-timer firings changes the status or registers a listener. |
| `Responder.CleanupSilencesAlerts` | src/components/responder-view.tsx:73-76 | After cleanup, no later incoming alert or routing-timer firing changes the status. |
| `Signup.Issues` | src/app/signup/page.tsx:35-51 | Each rule reports its issue exactly when it fails: an invalid email; a password shorter than 8; a missing or unknown user type, on the user-type path. The partner-subtype issue is reported, on the partner-category path, iff both choices were readable and a partner gave no category. |
| `Signup.Validate` | src/app/signup/page.tsx:35-51 | A form is accepted iff: the email is valid; the password has at least 8 code units; the user type is "public" or "partner"; the partner category is absent or one of the three; and a partner has one. Accepted data renders back to the same form, and a refusal carries at least one issue. |
| `Signup.PartnerNeedsSubtype` | src/app/signup/page.tsx:43-51 | A partner without a partner category is refused, with the issue attached to the partner-category path. |
| `Signup.PublicPassesPartnerRule` | src/app/signup/page.tsx:43-47 | A member of the public never triggers the cross-field rule. With valid other fields, they are accepted whether or not a category is given. |
| `Signup.ShortPasswordRefused` | src/app/signup/page.tsx:37 | A password shorter than 8 is refused, with an issue on the password path. |
| `Signup.UnknownUserTypeRefused` | src/app/signup/page.tsx:38-40 | A missing user type, or one other than "public" or "partner", is refused on the user-type path, and the cross-field rule is then not reported. |
| `Signup.UnknownPartnerTypeRefused` | src/app/signup/page.tsx:41 | A partner category outside "male", "female", "trans" is refused on the partner-category path. |
| `Signup.RenderThenValidate` | src/app/signup/page.tsx:35-51 | Data meeting the rules survives rendering into a form and validating again, unchanged. |

## Left out

- **Document-store SDK calls.** `runTransaction`, `addDoc`, `onSnapshot`,
  `deleteDoc` and `serverTimestamp` are abstract events on a map. The wallet
  transaction body is one atomic step, the store's timestamp is an event
  parameter, and the SDK's retry and latency behaviour is not modelled. A
  rejection of the whole transaction by the store is the event flag
  `storeAvailable`; a rejection after the write was committed is not
  modelled.
- **The multi-client accept race.** The code contains no accept
  transaction, so none is modelled. Accepts by other clients reach the
  requester only as the environment event `RemoteAccept`.
- **Browser geolocation.** It is the input `GeoReading`: unsupported, error,
  or a fix. Coordinates are `real` values that are only carried.
- **Real-time timers.** The 7000 ms and 2500 ms timers are "armed" flags
  plus firing events, with no clock.
- **Email format.** The check is the schema library's own pattern, so it is
  a function parameter `emailOk`.
- **Amount coercion.** The coercion of the amount string to a number (and
  NaN or infinities) is out of scope; the amount field is a `real`.
- **Authentication.** The phone sign-in flow and reCAPTCHA are left out.
  The user is an input record whose profile fields are optional.
- **The auth context's profile setter.** The wallet screen updates the
  cached balance through a `setUserData` of the auth context and reads
  `user.walletBalance` (src/app/wallet/page.tsx:96-97). The hook
  src/hooks/use-auth.tsx as it stands provides neither: its `User` has no
  `walletBalance` and it exports no `setUserData`. Called as written, the
  setter would throw after the commit, and the user would see "Transaction
  Failed" with the cache unmoved. The model assumes an auth context that
  supplies both and replaces the user record.
- **Number width.** Amounts and balances are JavaScript doubles, exact only
  below 2^53. The model uses unbounded integers, so rounding of balances
  beyond 2^53 is not modelled.
- **Asynchronous interleaving on the wallet screen.** The screen's events run
  each withdrawal or finalization as one event, so the `isProcessing` flag is
  not modelled, and `Wallet.Step` cannot start a second transaction while one
  is running. The code can: `onSubmit` does not return the withdrawal's
  promise, so the form's own submitting state clears at once, and the form
  stays on screen because the kind is cleared only in `finally`. Two
  overlapping withdrawals both compute the cache from the same stale balance.
  The invariant's "cache equals store" part holds only for the one-event
  runs; `Wallet.OverlappingWithdrawalsDesyncCache` shows the overlap breaking
  it.
- `InsertSucceeded`: an answer naming an id already in the store is treated
  as no answer. The store always hands out a fresh id, so this case does not
  arise in the code.
- **The message text of the schema library's own issues.** This covers the
  invalid enum value and the invalid email type; they appear only as issue
  kinds. The form's own messages are modelled.
- **React dependency comparison.** It is value equality on the user record
  rather than object identity.
- **The module-level listener.** It is a single field of one responder
  state; several screens sharing the variable are not modelled.
- **Presentation.** This covers toasts, dialogs as pixels, `toFixed`
  formatting, the mock alert data of the responder screen, and the pages
  that only render (home dispatch, account, header, layout, theme toggle,
  firebase configuration).
- `Wallet.TransactionKeepsNonNegative`: requires a non-negative amount. The
  transaction itself accepts any number; the amount rule is what guarantees
  ≥ 1 at the only callers.

=== FILE: alerter.dfy ===
/**
 * The requester's screen: choose the responder category, fix the location,
 * confirm with a phone number, insert the alert record, follow that record
 * until it is accepted or deleted, and cancel.
 */
module Alerter {
  import opened Common

  /** The declared screen states; `Sending` and `Error` are declared but never entered. */
  datatype AlertStatus = Idle | Sending | Sent | Accepted | Error

  /** A position fix; the coordinates are only carried and displayed. */
  datatype Location = Location(latitude: real, longitude: real)

  /** What the requester sent, kept on screen while the alert is live. */
  datatype AlertData = AlertData(phone: string, location: Location, gender: Category)

  /** A document of the alerts collection. */
  datatype AlertRecord = AlertRecord(
    alerterId: string,
    phone: string,
    location: Location,
    gender: Category,
    status: string,
    createdAt: int)

  /** The alerts collection, keyed by the id the store assigns. */
  type AlertStore = map<string, AlertRecord>

  // ---------------------------------------------------------------------------
  // Phone rule of the confirmation form
  // ---------------------------------------------------------------------------

  datatype PhoneIssue = TooShort | TooLong

  function PhoneMessage(i: PhoneIssue): string {
    match i
    case TooShort => "A valid phone number is required."
    case TooLong => "Phone number is too long."
  }

  /** The phone field: between 10 and 20 UTF-16 code units inclusive. */
  function ValidatePhone(phone: string): (r: Result<string, PhoneIssue>)
    ensures r.Success? <==> 10 <= Utf16Length(phone) <= 20
    ensures r.Success? ==> r.value == phone
    ensures r == Failure(TooShort) <==> Utf16Length(phone) < 10
    ensures r == Failure(TooLong) <==> Utf16Length(phone) > 20
  {
    var n := Utf16Length(phone);
    if n < 10 then Failure(TooShort)
    else if n > 20 then Failure(TooLong)
    else Success(phone)
  }

  /** For ordinary text (no character beyond the Basic Multilingual Plane) the rule counts characters. */
  lemma PhoneRuleOnBmpText(phone: string)
    requires AllBmp(phone)
    ensures ValidatePhone(phone).Success? <==> 10 <= |phone| <= 20
  {
    Utf16LengthOfBmp(phone);
  }

  // ---------------------------------------------------------------------------
  // The alert record
  // ---------------------------------------------------------------------------

  /** The record inserted for a submitted alert, stamped by the store with `createdAt`. */
  function NewAlertRecord(alerterId: string, data: AlertData, createdAt: int): (r: AlertRecord)
    ensures r.status == "pending" && r.alerterId == alerterId && r.createdAt == createdAt
    ensures RecordShows(r, data)
  {
    AlertRecord(alerterId, data.phone, data.location, data.gender, "pending", createdAt)
  }

  /** The record carries exactly the phone, location and category of `data`. */
  predicate RecordShows(r: AlertRecord, data: AlertData) {
    r.phone == data.phone && r.location == data.location && r.gender == data.gender
  }

  // ---------------------------------------------------------------------------
  // The screen
  // ---------------------------------------------------------------------------

  /** An insert sent to the store whose answer has not arrived yet. */
  datatype PendingInsert = PendingInsert(alerterId: string, data: AlertData)

  /**
   * The requester screen's state. `inFlight` is the insert awaiting the
   * store's answer (the suspended submit handler).
   */
  datatype AlerterClient = AlerterClient(
    user: Option<User>,
    status: AlertStatus,
    activeAlertId: Option<string>,
    alertData: Option<AlertData>,
    selectedGender: Option<Category>,
    showSendDialog: bool,
    isSubmitting: bool,
    location: Option<Location>,
    inFlight: Option<PendingInsert>)

  /** The screen together with the alerts collection. */
  datatype AlerterWorld = AlerterWorld(client: AlerterClient, store: AlertStore)

  function InitialClient(user: Option<User>): AlerterClient {
    AlerterClient(user, Idle, None, None, None, false, false, None, None)
  }

  /** The result of asking the browser for a position. */
  datatype GeoReading = Unsupported | PositionError | Fix(location: Location)

  /** Back to the start: idle, with the sent data, category, location and followed alert id forgotten. */
  function ResetSimulation(c: AlerterClient): (c': AlerterClient)
    ensures c'.status == Idle && c'.activeAlertId.None? && c'.alertData.None?
    ensures c'.selectedGender.None? && c'.location.None?
    ensures c'.user == c.user && c'.showSendDialog == c.showSendDialog
    ensures c'.isSubmitting == c.isSubmitting && c'.inFlight == c.inFlight
  {
    c.(status := Idle, alertData := None, selectedGender := None, location := None, activeAlertId := None)
  }

  /**
   * The SEND ALERT button: needs a chosen category and a position; only a
   * successful fix records the location and opens the confirmation dialog.
   */
  function HandleSendAlertClick(c: AlerterClient, geo: GeoReading): (c': AlerterClient)
    ensures c.selectedGender.None? || !geo.Fix? ==> c' == c
    ensures c.selectedGender.Some? && geo.Fix? ==>
              c' == c.(location := Some(geo.location), showSendDialog := true)
  {
    if c.selectedGender.None? then c
    else match geo
      case Unsupported => c
      case PositionError => c
      case Fix(l) => c.(location := Some(l), showSendDialog := true)
  }

  /**
   * Confirming the dialog: an invalid phone never reaches the handler; a
   * missing location, category or user changes nothing; otherwise the screen
   * shows the alert as sent, closes the dialog and sends the insert.
   */
  function HandleFormSubmit(c: AlerterClient, phone: string): (c': AlerterClient)
    ensures ValidatePhone(phone).Failure? ==> c' == c
    ensures c.location.None? || c.selectedGender.None? || c.user.None? ==> c' == c
    ensures ValidatePhone(phone).Success? && c.location.Some? && c.selectedGender.Some? && c.user.Some? ==>
              var data := AlertData(phone, c.location.value, c.selectedGender.value);
              && c'.status == Sent && c'.alertData == Some(data) && !c'.showSendDialog && c'.isSubmitting
              && c'.inFlight == Some(PendingInsert(c.user.value.uid, data))
              && c'.activeAlertId == c.activeAlertId && c'.location == c.location
              && c'.selectedGender == c.selectedGender && c'.user == c.user
  {
    if ValidatePhone(phone).Failure? then c
    else if c.location.None? || c.selectedGender.None? || c.user.None? then c
    else
      var data := AlertData(phone, c.location.value, c.selectedGender.value);
      c.(isSubmitting := true, alertData := Some(data), status := Sent, showSendDialog := false,
         inFlight := Some(PendingInsert(c.user.value.uid, data)))
  }

  /**
   * The store accepted the insert under the fresh id `id`: the record is
   * written pending, and the screen starts following it.
   */
  function InsertSucceeded(w: AlerterWorld, id: string, createdAt: int): (w': AlerterWorld)
    ensures w.client.inFlight.None? || id in w.store ==> w' == w
    ensures w.client.inFlight.Some? && id !in w.store ==>
              var p := w.client.inFlight.value;
              && w'.store == w.store[id := NewAlertRecord(p.alerterId, p.data, createdAt)]
              && w'.client == w.client.(activeAlertId := Some(id), isSubmitting := false, inFlight := None)
    ensures w.client.inFlight.Some? && id !in w.store ==>
              && id in w'.store && w'.store[id].status == "pending"
              && w'.store[id].alerterId == w.client.inFlight.value.alerterId
              && RecordShows(w'.store[id], w.client.inFlight.value.data)
              && w'.client.status == w.client.status && w'.client.alertData == w.client.alertData
  {
    match w.client.inFlight
    case None => w
    case Some(p) =>
      if id in w.store then w
      else AlerterWorld(
        w.client.(activeAlertId := Some(id), isSubmitting := false, inFlight := None),
        w.store[id := NewAlertRecord(p.alerterId, p.data, createdAt)])
  }

  /** The store refused the insert: nothing is written and the screen is reset. */
  function InsertFailed(c: AlerterClient): (c': AlerterClient)
    ensures c.inFlight.None? ==> c' == c
    ensures c.inFlight.Some? ==>
              c'.status == Idle && c'.alertData.None? && c'.selectedGender.None? &&
              c'.location.None? && c'.activeAlertId.None? && c'.inFlight.None? && !c'.isSubmitting
    ensures c'.user == c.user && c'.showSendDialog == c.showSendDialog
  {
    if c.inFlight.None? then c
    else ResetSimulation(c).(isSubmitting := false, inFlight := None)
  }

  /**
   * A snapshot of the followed record: a record whose status reads
   * "accepted" moves the screen to `Accepted`; a deleted record resets the
   * screen unless it already shows `Accepted`. Without a followed id there is
   * no subscription.
   */
  function OnSnapshot(c: AlerterClient, store: AlertStore): (c': AlerterClient)
    ensures c.activeAlertId.None? ==> c' == c
    ensures c.activeAlertId.Some? ==>
              (c'.status == Accepted <==>
                 c.status == Accepted ||
                 (c.activeAlertId.value in store && store[c.activeAlertId.value].status == "accepted"))
    ensures c.activeAlertId.Some? && c.activeAlertId.value in store ==> c' == c.(status := c'.status)
    ensures (c.activeAlertId.Some? && c.activeAlertId.value in store &&
             store[c.activeAlertId.value].status != "accepted") ==> c' == c
    ensures c.activeAlertId.Some? && c.activeAlertId.value !in store ==>
              c' == (if c.status == Accepted then c else ResetSimulation(c))
  {
    match c.activeAlertId
    case None => c
    case Some(id) =>
      if id in store then
        if store[id].status == "accepted" then c.(status := Accepted) else c
      else if c.status != Accepted then ResetSimulation(c)
      else c
  }

  /**
   * Cancel: delete the followed record if there is one (the delete may
   * fail), and reset the screen in every case.
   */
  function CancelAlert(w: AlerterWorld, deleteSucceeds: bool): (w': AlerterWorld)
    ensures w'.client == ResetSimulation(w.client)
    ensures w'.client.status == Idle && w'.client.activeAlertId.None?
    ensures w.client.activeAlertId.None? || !deleteSucceeds ==> w'.store == w.store
    ensures w.client.activeAlertId.Some? && deleteSucceeds ==>
              w'.store == w.store - {w.client.activeAlertId.value}
  {
    var store' :=
      match w.client.activeAlertId
      case None => w.store
      case Some(id) => if deleteSucceeds then w.store - {id} else w.store;
    AlerterWorld(ResetSimulation(w.client), store')
  }

  // ---------------------------------------------------------------------------
  // Events
  // ---------------------------------------------------------------------------

  datatype AlerterEvent =
    // controls of the screen
    | SelectGender(gender: Category)
    | SendAlertClick(geo: GeoReading)
    | CloseDialog
    | SubmitPhone(phone: string)
    | Cancel(deleteSucceeds: bool)
    | EndAlert
    // answers and notifications from the store
    | InsertOk(id: string, createdAt: int)
    | InsertError
    | Snapshot
    // writes by other clients
    | RemoteAccept(id: string)
    | RemoteDelete(id: string)

  /** True for the events a person triggers through a control on screen. */
  predicate IsControl(e: AlerterEvent) {
    e.SelectGender? || e.SendAlertClick? || e.CloseDialog? || e.SubmitPhone? || e.Cancel? || e.EndAlert?
  }

  /**
   * Which controls are on screen: the category buttons, SEND ALERT (enabled
   * with a category) and the confirmation dialog in the idle view, the modal
   * dialog covering the buttons while it is open and its submit button live
   * only while no insert is pending; Cancel in the sent view; End Alert in the
   * accepted view, which is only drawn with sent data at hand.
   */
  predicate OnScreen(c: AlerterClient, e: AlerterEvent)
    requires IsControl(e)
  {
    match e
    case SelectGender(_) => c.status == Idle && !c.showSendDialog
    case SendAlertClick(_) => c.status == Idle && !c.showSendDialog && c.selectedGender.Some?
    case CloseDialog => c.status == Idle && c.showSendDialog
    case SubmitPhone(_) => c.status == Idle && c.showSendDialog && !c.isSubmitting
    case Cancel(_) => c.status == Sent
    case EndAlert => c.status == Accepted && c.alertData.Some?
  }

  /**
   * One event; a control that is not on screen does nothing. Only cancel, an
   * insert's answer and other clients' writes reach the store; other clients'
   * writes reach the screen only through a later snapshot; the signed-in user
   * never changes here.
   */
  function Step(w: AlerterWorld, e: AlerterEvent): (w': AlerterWorld)
    ensures IsControl(e) && !OnScreen(w.client, e) ==> w' == w
    ensures !(e.Cancel? || e.InsertOk? || e.RemoteAccept? || e.RemoteDelete?) ==> w'.store == w.store
    ensures e.RemoteAccept? || e.RemoteDelete? ==> w'.client == w.client
    ensures w'.client.user == w.client.user
    ensures w.client.showSendDialog && (e.SelectGender? || e.SendAlertClick?) ==> w' == w
    ensures e.SelectGender? && OnScreen(w.client, e) ==>
              w' == w.(client := w.client.(selectedGender := Some(e.gender)))
    ensures e.SendAlertClick? && OnScreen(w.client, e) ==>
              w' == w.(client := HandleSendAlertClick(w.client, e.geo))
    ensures e.CloseDialog? && OnScreen(w.client, e) ==>
              w' == w.(client := w.client.(showSendDialog := false))
    ensures e.SubmitPhone? && OnScreen(w.client, e) ==>
              w' == w.(client := HandleFormSubmit(w.client, e.phone))
    ensures e.Cancel? && OnScreen(w.client, e) ==> w' == CancelAlert(w, e.deleteSucceeds)
    ensures e.EndAlert? && OnScreen(w.client, e) ==> w' == w.(client := ResetSimulation(w.client))
    ensures e.InsertOk? ==> w' == InsertSucceeded(w, e.id, e.createdAt)
    ensures e.InsertError? ==> w' == w.(client := InsertFailed(w.client))
    ensures e.Snapshot? ==> w' == w.(client := OnSnapshot(w.client, w.store))
    ensures e.RemoteAccept? && e.id in w.store ==>
              w'.store == w.store[e.id := w.store[e.id].(status := "accepted")]
    ensures e.RemoteAccept? && e.id !in w.store ==> w' == w
    ensures e.RemoteDelete? ==> w'.store == w.store - {e.id}
  {
    var c := w.client;
    if IsControl(e) && !OnScreen(c, e) then w
    else match e
      case SelectGender(g) => w.(client := c.(selectedGender := Some(g)))
      case SendAlertClick(geo) => w.(client := HandleSendAlertClick(c, geo))
      case CloseDialog => w.(client := c.(showSendDialog := false))
      case SubmitPhone(phone) => w.(client := HandleFormSubmit(c, phone))
      case Cancel(ok) => CancelAlert(w, ok)
      case EndAlert => w.(client := ResetSimulation(c))
      case InsertOk(id, t) => InsertSucceeded(w, id, t)
      case InsertError => w.(client := InsertFailed(c))
      case Snapshot => w.(client := OnSnapshot(c, w.store))
      case RemoteAccept(id) =>
        if id in w.store then w.(store := w.store[id := w.store[id].(status := "accepted")]) else w
      case RemoteDelete(id) => w.(store := w.store - {id})
  }

  function Run(w: AlerterWorld, events: seq<AlerterEvent>): AlerterWorld
    decreases |events|
  {
    if events == [] then w else Run(Step(w, events[0]), events[1..])
  }

  // ---------------------------------------------------------------------------
  // Properties
  // ---------------------------------------------------------------------------

  /**
   * What every reachable requester screen satisfies: only `Idle`, `Sent` and
   * `Accepted` are ever shown; the submitting flag is exactly "an insert is
   * pending"; the pending insert carries the data on screen under the user's
   * id; a sent alert has its data; an accepted one has a followed id.
   */
  ghost predicate AlerterInv(c: AlerterClient) {
    && c.status != Sending && c.status != Error
    && (c.isSubmitting <==> c.inFlight.Some?)
    && (c.inFlight.Some? ==> c.user.Some? && c.inFlight.value.alerterId == c.user.value.uid)
    && (c.inFlight.Some? && c.alertData.Some? ==> c.inFlight.value.data == c.alertData.value)
    && (c.status == Sent ==> c.alertData.Some?)
    && (c.status == Accepted ==> c.activeAlertId.Some?)
  }

  lemma InitialSatisfiesInv(user: Option<User>)
    ensures AlerterInv(InitialClient(user))
  {
  }

  /**
   * The screen's own steps never rewrite an existing record: a record is
   * either kept as it was or deleted, and a record that appears is pending,
   * carries the signed-in user's id, and shows the data on screen when it was
   * submitted.
   */
  ghost predicate OwnWritesOnly(w: AlerterWorld, w': AlerterWorld) {
    && (forall id :: id in w'.store && id in w.store ==> w'.store[id] == w.store[id])
    && (forall id :: id in w'.store && id !in w.store ==>
          && w'.store[id].status == "pending"
          && w.client.inFlight.Some?
          && w'.store[id].alerterId == w.client.inFlight.value.alerterId
          && RecordShows(w'.store[id], w.client.inFlight.value.data))
  }

  lemma StepPreservesInv(w: AlerterWorld, e: AlerterEvent)
    requires AlerterInv(w.client)
    ensures AlerterInv(Step(w, e).client)
    ensures !e.RemoteAccept? ==> OwnWritesOnly(w, Step(w, e))
  {
  }

  /** Along every run from a screen meeting the invariant, `Sending` and `Error` are never shown. */
  lemma {:induction false} RunPreservesInv(w: AlerterWorld, events: seq<AlerterEvent>)
    requires AlerterInv(w.client)
    ensures AlerterInv(Run(w, events).client)
    ensures Run(w, events).client.status in {Idle, Sent, Accepted}
    decreases |events|
  {
    if events != [] {
      StepPreservesInv(w, events[0]);
      RunPreservesInv(Step(w, events[0]), events[1..]);
    }
  }

  /** Once accepted, no snapshot changes the screen, whatever the store now holds. */
  lemma AcceptedIgnoresSnapshots(c: AlerterClient, store: AlertStore)
    requires c.status == Accepted
    ensures OnSnapshot(c, store) == c
  {
  }

  /**
   * Cancel is safe to repeat: a second cancel leaves the screen and the store
   * as the first left them.
   */
  lemma CancelIdempotent(w: AlerterWorld, ok1: bool, ok2: bool)
    ensures CancelAlert(CancelAlert(w, ok1), ok2) == CancelAlert(w, ok1)
  {
  }

  /**
   * Cancelling while the insert is still pending does not reach the store:
   * when the insert then succeeds, the record stays pending in the store and
   * the idle screen follows it.
   */
  lemma CancelDuringInsertLeavesRecord(user: User, l: Location, phone: string, id: string)
    requires ValidatePhone(phone).Success?
    ensures
      var w0 := AlerterWorld(InitialClient(Some(user)), map[]);
      var w := Run(w0, [SelectGender(Female), SendAlertClick(Fix(l)), SubmitPhone(phone), Cancel(true), InsertOk(id, 0)]);
      && w.client.status == Idle
      && w.client.activeAlertId == Some(id)
      && id in w.store && w.store[id].status == "pending"
      && w.store[id].alerterId == user.uid
  {
    var w0 := AlerterWorld(InitialClient(Some(user)), map[]);
    var w1 := Step(w0, SelectGender(Female));
    assert w1.client.selectedGender == Some(Female) && w1.client.status == Idle;
    var w2 := Step(w1, SendAlertClick(Fix(l)));
    assert w2.client.location == Some(l) && w2.client.showSendDialog && w2.client.status == Idle;
    var w3 := Step(w2, SubmitPhone(phone));
    assert w3.client.status == Sent && w3.client.inFlight == Some(PendingInsert(user.uid, AlertData(phone, l, Female)));
    assert w3.client.activeAlertId.None? && w3.store == map[];
    var w4 := Step(w3, Cancel(true));
    assert w4.store == map[] && w4.client.inFlight == w3.client.inFlight && w4.client.status == Idle;
    var w5 := Step(w4, InsertOk(id, 0));
    assert w5.client.activeAlertId == Some(id) && w5.client.status == Idle;
    assert Run(w4, [InsertOk(id, 0)]) == w5;
    assert Run(w3, [Cancel(true), InsertOk(id, 0)]) == w5;
    assert Run(w2, [SubmitPhone(phone), Cancel(true), InsertOk(id, 0)]) == w5;
    assert Run(w1, [SendAlertClick(Fix(l)), SubmitPhone(phone), Cancel(true), InsertOk(id, 0)]) == w5;
  }

  /**
   * An accepted screen without sent data draws no control, and no
   * notification moves it: every event leaves the screen as it is.
   */
  lemma AcceptedWithoutDataIsFinal(w: AlerterWorld, e: AlerterEvent)
    requires AlerterInv(w.client)
    requires w.client.status == Accepted && w.client.alertData.None? && w.client.inFlight.None?
    ensures Step(w, e).client == w.client
  {
  }

  /**
   * The way to the accepted screen: while a sent alert's record is followed,
   * another client accepting it and the next snapshot show `Accepted` with the
   * sent data kept; End Alert then resets the screen.
   */
  lemma AcceptThroughScreen(w: AlerterWorld, id: string)
    requires w.client.status == Sent && w.client.alertData.Some?
    requires w.client.activeAlertId == Some(id) && id in w.store
    ensures var w2 := Run(w, [RemoteAccept(id), Snapshot]);
            && w2.client.status == Accepted
            && w2.client.alertData == w.client.alertData
            && id in w2.store && w2.store[id].status == "accepted"
            && Step(w2, EndAlert).client == ResetSimulation(w2.client)
  {
    var w1 := Step(w, RemoteAccept(id));
    var w2 := Step(w1, Snapshot);
    assert Run(w1, [Snapshot]) == w2;
  }

  /** Cancel from the sent screen deletes the followed record when the delete succeeds, and the screen is idle. */
  lemma CancelThroughScreen(w: AlerterWorld, id: string)
    requires w.client.status == Sent && w.client.activeAlertId == Some(id)
    ensures var w' := Step(w, Cancel(true));
            id !in w'.store && w'.store == w.store - {id} && w'.client.status == Idle
  {
  }
}

=== FILE: common.dfy ===
/**
 * Vocabulary shared by the wallet, the requester and responder views and the
 * signup form: the optional/result wrappers, the responder category that all
 * three screens enumerate, the user profile the screens read, and the string
 * length that the form validators measure.
 */
module Common {

  datatype Option<+T> = None | Some(value: T) {
    /** The value in `Some`, or `default` when absent (the `x || d` idiom of the views). */
    function GetOr(default: T): T {
      match this
      case Some(v) => v
      case None => default
    }
  }

  datatype Result<+R, +E> = Success(value: R) | Failure(error: E)

  /**
   * The responder category ("gender" in the views, "partnerType" in the
   * profile). One closed enumeration, used by the alert form, the responder
   * filter and the signup form alike.
   */
  datatype Category = Male | Female | Trans

  /** The two kinds of account: a member of the public raising alerts, or a partner responding. */
  datatype UserType = Public | Partner

  /** The wire spelling of a category. */
  function CategoryName(c: Category): string {
    match c
    case Male => "male"
    case Female => "female"
    case Trans => "trans"
  }

  /** Reads a category from its wire spelling; any other string is not a category. */
  function ParseCategory(s: string): (r: Option<Category>)
    ensures forall c :: r == Some(c) <==> s == CategoryName(c)
    ensures r.None? <==> s !in {"male", "female", "trans"}
  {
    if s == "male" then Some(Male)
    else if s == "female" then Some(Female)
    else if s == "trans" then Some(Trans)
    else None
  }

  /** The wire spelling of a user type. */
  function UserTypeName(t: UserType): string {
    match t
    case Public => "public"
    case Partner => "partner"
  }

  /** Reads a user type from its wire spelling; any other string is not a user type. */
  function ParseUserType(s: string): (r: Option<UserType>)
    ensures forall t :: r == Some(t) <==> s == UserTypeName(t)
    ensures r.None? <==> s !in {"public", "partner"}
  {
    if s == "public" then Some(Public)
    else if s == "partner" then Some(Partner)
    else None
  }

  /**
   * The signed-in user as the screens read it: the identity provider's id and
   * phone number, plus the profile fields the views consult. Every profile
   * field may be missing.
   */
  datatype User = User(
    uid: string,
    phoneNumber: Option<string>,
    userType: Option<UserType>,
    partnerType: Option<Category>,
    walletBalance: Option<int>)

  /** Number of UTF-16 code units a character occupies. */
  function CodeUnits(c: char): nat {
    if c as int < 0x1_0000 then 1 else 2
  }

  /**
   * The length a JavaScript string reports: UTF-16 code units, so a character
   * outside the Basic Multilingual Plane counts twice.
   */
  function Utf16Length(s: string): (n: nat)
    ensures |s| <= n <= 2 * |s|
    ensures n == 0 <==> s == []
  {
    if s == [] then 0 else CodeUnits(s[0]) + Utf16Length(s[1..])
  }

  /** True when every character of `s` lies in the Basic Multilingual Plane. */
  predicate AllBmp(s: string) {
    forall i :: 0 <= i < |s| ==> s[i] as int < 0x1_0000
  }

  /** On Basic-Multilingual-Plane text the JavaScript length is the character count. */
  lemma {:induction false} Utf16LengthOfBmp(s: string)
    requires AllBmp(s)
    ensures Utf16Length(s) == |s|
  {
    if s != [] {
      assert AllBmp(s[1..]) by {
        forall i | 0 <= i < |s[1..]| ensures s[1..][i] as int < 0x1_0000 {
          assert s[1..][i] == s[i + 1];
        }
      }
      Utf16LengthOfBmp(s[1..]);
    }
  }
}

=== FILE: responder.dfy ===
/**
 * The responder's screen, a simulation: a partner registers a listener for
 * alerts of their own category, an alert opens the accept/decline dialog,
 * declining reroutes, and timers stand in for the arrival of alerts.
 *
 * The listener the view stores in a process-wide variable is a field of the
 * state here; each timer is a flag saying it is armed plus an event for its
 * firing.
 */
module Responder {
  import opened Common

  datatype ResponderStatus = Idle | Routing | Received | Accepted

  /** The registered alert handler, with the partner category it captured when registered. */
  datatype AlertListener = AlertListener(partnerGender: Option<Category>)

  /** Whether the handler takes an alert of category `alertGender`. */
  predicate Takes(l: AlertListener, alertGender: Category) {
    l.partnerGender == Some(alertGender)
  }

  datatype ResponderState = ResponderState(
    user: Option<User>,
    status: ResponderStatus,
    listener: Option<AlertListener>,
    demoTimerArmed: bool,      // the one-off alert after registration
    routingTimerArmed: bool,   // the reroute after a decline
    mounted: bool)

  predicate IsPartner(u: Option<User>) {
    u.Some? && u.value.userType == Some(Partner)
  }

  /** The category of the signed-in user, if any. */
  function PartnerTypeOf(u: Option<User>): Option<Category> {
    if u.Some? then u.value.partnerType else None
  }

  /**
   * The status setter with the routing effect attached: entering `Routing`
   * arms the routing timer, leaving it disarms it, and setting the status it
   * already has re-runs nothing.
   */
  function SetStatus(s: ResponderState, st: ResponderStatus): (s': ResponderState)
    ensures s'.status == st
    ensures s'.routingTimerArmed == (if st == s.status then s.routingTimerArmed else st == Routing)
    ensures s'.user == s.user && s'.listener == s.listener
    ensures s'.demoTimerArmed == s.demoTimerArmed && s'.mounted == s.mounted
  {
    if st == s.status then s else s.(status := st, routingTimerArmed := st == Routing)
  }

  /** The listener effect: a partner registers a handler for their category and arms the demo timer. */
  function RegisterListener(s: ResponderState): (s': ResponderState)
    ensures !IsPartner(s.user) ==> s' == s
    ensures IsPartner(s.user) ==>
              && s'.listener.Some? && s'.demoTimerArmed
              && (forall g :: Takes(s'.listener.value, g) <==> s.user.value.partnerType == Some(g))
    ensures s'.status == s.status && s'.user == s.user
    ensures s'.routingTimerArmed == s.routingTimerArmed && s'.mounted == s.mounted
  {
    if IsPartner(s.user) then
      s.(listener := Some(AlertListener(s.user.value.partnerType)), demoTimerArmed := true)
    else s
  }

  /** The listener effect's cleanup: the handler is unregistered and the demo timer cleared. */
  function CleanupListener(s: ResponderState): (s': ResponderState)
    ensures s'.listener.None? && !s'.demoTimerArmed
    ensures s'.status == s.status && s'.user == s.user && s'.routingTimerArmed == s.routingTimerArmed
  {
    s.(listener := None, demoTimerArmed := false)
  }

  /** The screen as first shown to `user`, with its effects run. */
  function Mount(user: Option<User>): (s: ResponderState)
    ensures s.status == Idle && s.mounted && !s.routingTimerArmed
    ensures s.listener.Some? <==> IsPartner(user)
  {
    RegisterListener(ResponderState(user, Idle, None, false, false, true))
  }

  /** The handler registered for a partner: an alert of their category opens the dialog. */
  function HandleAlert(s: ResponderState, l: AlertListener, alertGender: Category): (s': ResponderState)
    ensures s'.status == (if l.partnerGender == Some(alertGender) then Received else s.status)
    ensures l.partnerGender != Some(alertGender) ==> s' == s
    ensures s.status == Routing && l.partnerGender == Some(alertGender) ==> !s'.routingTimerArmed
    ensures s'.user == s.user && s'.listener == s.listener
    ensures s'.demoTimerArmed == s.demoTimerArmed && s'.mounted == s.mounted
  {
    if Takes(l, alertGender) then SetStatus(s, Received) else s
  }

  /** An alert handed to whatever listener is registered; with none registered nothing happens. */
  function OnIncomingAlert(s: ResponderState, alertGender: Category): (s': ResponderState)
    ensures s.listener.Some? && Takes(s.listener.value, alertGender) ==> s'.status == Received
    ensures s.listener.None? || !Takes(s.listener.value, alertGender) ==> s' == s
    ensures s'.user == s.user && s'.listener == s.listener
    ensures s'.demoTimerArmed == s.demoTimerArmed && s'.mounted == s.mounted
    ensures s.listener.Some? && Takes(s.listener.value, alertGender) ==> s' == SetStatus(s, Received)
  {
    match s.listener
    case None => s
    case Some(l) => HandleAlert(s, l, alertGender)
  }

  /** The demo timer: once armed, it hands the partner's own category to their handler. */
  function OnDemoTimer(s: ResponderState): (s': ResponderState)
    ensures !s.demoTimerArmed ==> s' == s
    ensures s.demoTimerArmed ==> !s'.demoTimerArmed
    ensures (s.demoTimerArmed && s.listener.Some? && s.user.Some? && s.user.value.partnerType.Some? &&
             Takes(s.listener.value, s.user.value.partnerType.value)) ==> s'.status == Received
    ensures s.demoTimerArmed && !(s.listener.Some? && s.user.Some? && s.user.value.partnerType.Some?) ==>
              s' == s.(demoTimerArmed := false)
    ensures s'.user == s.user && s'.listener == s.listener && s'.mounted == s.mounted
  {
    if !s.demoTimerArmed then s
    else
      var s1 := s.(demoTimerArmed := false);
      if s.listener.Some? && s.user.Some? && s.user.value.partnerType.Some? then
        HandleAlert(s1, s.listener.value, s.user.value.partnerType.value)
      else s1
  }

  /**
   * The routing timer: when a listener is registered and the user has a
   * category, the alert goes back to the listener and the dialog reopens;
   * otherwise the screen stays where it is.
   */
  function OnRoutingTimer(s: ResponderState): (s': ResponderState)
    ensures !s.routingTimerArmed ==> s' == s
    ensures s.routingTimerArmed ==> !s'.routingTimerArmed && s'.listener == s.listener
    ensures s.routingTimerArmed && s.status == Routing ==>
              (s'.status == Received <==> s.listener.Some? && s.user.Some? && s.user.value.partnerType.Some?)
    ensures s.routingTimerArmed && !(s.listener.Some? && s.user.Some? && s.user.value.partnerType.Some?) ==>
              s'.status == s.status
    ensures s'.user == s.user && s'.demoTimerArmed == s.demoTimerArmed && s'.mounted == s.mounted
  {
    if !s.routingTimerArmed then s
    else
      var s1 := s.(routingTimerArmed := false);
      if s.listener.Some? && s.user.Some? && s.user.value.partnerType.Some? then
        SetStatus(HandleAlert(s1, s.listener.value, s.user.value.partnerType.value), Received)
      else s1
  }

  /**
   * A new user value: the listener effect is cleaned up and re-run, and the
   * routing effect re-runs when the category changed.
   */
  function OnUserChanged(s: ResponderState, u: Option<User>): (s': ResponderState)
    ensures u == s.user ==> s' == s
    ensures s'.user == u && s'.status == s.status
    ensures u != s.user ==> (s'.listener.Some? <==> IsPartner(u))
    ensures u != s.user ==> s'.demoTimerArmed == IsPartner(u) && s'.mounted == s.mounted
    ensures u != s.user ==>
              s'.routingTimerArmed ==
              (if PartnerTypeOf(u) != PartnerTypeOf(s.user) then s.status == Routing else s.routingTimerArmed)
  {
    if u == s.user then s
    else
      var s1 := RegisterListener(CleanupListener(s).(user := u));
      if PartnerTypeOf(u) != PartnerTypeOf(s.user) then s1.(routingTimerArmed := s.status == Routing)
      else s1
  }

  datatype ResponderEvent =
    // controls of the screen
    | AcceptAlert
    | DeclineAlert
    | ResetClick
    // the environment
    | IncomingAlert(gender: Category)
    | DemoTimerFires
    | RoutingTimerFires
    | UserChanged(user: Option<User>)
    | Unmount

  /**
   * One event. Accept and decline are the two buttons of the dialog, which is
   * open only in `Received`; reset is on the accepted screen only. An
   * unmounted screen takes no event, and unmounting runs every cleanup.
   */
  function Step(s: ResponderState, e: ResponderEvent): (s': ResponderState)
    ensures !s.mounted ==> s' == s
    ensures !e.UserChanged? ==> s'.user == s.user
    ensures (e.AcceptAlert? || e.DeclineAlert?) && s'.status != s.status ==> s.status == Received
    ensures e.ResetClick? && s'.status != s.status ==> s.status == Accepted && s'.status == Idle
    ensures e.Unmount? && s.mounted ==>
              !s'.mounted && s'.listener.None? && !s'.demoTimerArmed && !s'.routingTimerArmed
    ensures s.mounted && e.IncomingAlert? ==> s' == OnIncomingAlert(s, e.gender)
    ensures s.mounted && e.DemoTimerFires? ==> s' == OnDemoTimer(s)
    ensures s.mounted && e.RoutingTimerFires? ==> s' == OnRoutingTimer(s)
    ensures s.mounted && e.UserChanged? ==> s' == OnUserChanged(s, e.user)
    ensures s.mounted && e.AcceptAlert? && s.status == Received ==> s' == SetStatus(s, Accepted)
    ensures s.mounted && e.DeclineAlert? && s.status == Received ==> s' == SetStatus(s, Routing)
    ensures s.mounted && e.ResetClick? && s.status == Accepted ==> s' == SetStatus(s, Idle)
  {
    if !s.mounted then s
    else match e
      case AcceptAlert => if s.status == Received then SetStatus(s, Accepted) else s
      case DeclineAlert => if s.status == Received then SetStatus(s, Routing) else s
      case ResetClick => if s.status == Accepted then SetStatus(s, Idle) else s
      case IncomingAlert(g) => OnIncomingAlert(s, g)
      case DemoTimerFires => OnDemoTimer(s)
      case RoutingTimerFires => OnRoutingTimer(s)
      case UserChanged(u) => OnUserChanged(s, u)
      case Unmount => CleanupListener(s).(routingTimerArmed := false, mounted := false)
  }

  function Run(s: ResponderState, events: seq<ResponderEvent>): ResponderState
    decreases |events|
  {
    if events == [] then s else Run(Step(s, events[0]), events[1..])
  }

  /**
   * What every reachable responder screen satisfies: a listener is
   * registered exactly while a mounted screen shows a partner, and it captured
   * that partner's category; the demo timer needs a listener; the routing
   * timer is armed only in `Routing`.
   */
  ghost predicate ResponderInv(s: ResponderState) {
    && (s.listener.Some? <==> s.mounted && IsPartner(s.user))
    && (s.listener.Some? ==> s.listener.value.partnerGender == s.user.value.partnerType)
    && (s.demoTimerArmed ==> s.listener.Some?)
    && (s.routingTimerArmed ==> s.status == Routing && s.mounted)
  }

  lemma MountSatisfiesInv(user: Option<User>)
    ensures ResponderInv(Mount(user))
  {
  }

  lemma StepPreservesInv(s: ResponderState, e: ResponderEvent)
    requires ResponderInv(s)
    ensures ResponderInv(Step(s, e))
  {
  }

  lemma {:induction false} RunPreservesInv(s: ResponderState, events: seq<ResponderEvent>)
    requires ResponderInv(s)
    ensures ResponderInv(Run(s, events))
    decreases |events|
  {
    if events != [] {
      StepPreservesInv(s, events[0]);
      RunPreservesInv(Step(s, events[0]), events[1..]);
    }
  }

  /**
   * Category isolation: on a reachable screen an incoming alert opens the
   * dialog iff it is of the partner's own category; otherwise nothing changes.
   */
  lemma IncomingAlertMatchesCategory(s: ResponderState, g: Category)
    requires ResponderInv(s) && s.mounted && s.status != Received
    ensures Step(s, IncomingAlert(g)).status == Received <==>
              IsPartner(s.user) && s.user.value.partnerType == Some(g)
    ensures Step(s, IncomingAlert(g)).status != Received ==> Step(s, IncomingAlert(g)) == s
  {
  }

  /** A screen showing a user who is not a partner ignores every alert and timer. */
  lemma NonPartnerIgnoresAlerts(s: ResponderState, e: ResponderEvent)
    requires ResponderInv(s) && !IsPartner(s.user)
    requires e.IncomingAlert? || e.DemoTimerFires? || e.RoutingTimerFires?
    ensures Step(s, e).status == s.status && Step(s, e).listener.None?
  {
  }

  /** The three buttons: accept, decline and reset move the dialog's state as labelled. */
  lemma ButtonsMoveAsLabelled(s: ResponderState)
    requires s.mounted
    ensures s.status == Received ==> Step(s, AcceptAlert).status == Accepted
    ensures s.status == Received ==> Step(s, DeclineAlert).status == Routing && Step(s, DeclineAlert).routingTimerArmed
    ensures s.status == Accepted ==> Step(s, ResetClick).status == Idle
  {
  }

  /** Accepting writes nothing anywhere and keeps the listener: the change is purely local. */
  lemma AcceptIsLocal(s: ResponderState)
    requires s.mounted && s.status == Received
    ensures Step(s, AcceptAlert) == s.(status := Accepted, routingTimerArmed := false)
  {
  }

  /**
   * With no listener registered, neither an incoming alert nor the routing
   * timer moves the screen, along any sequence of those events.
   */
  lemma {:induction false} NoListenerNoDelivery(s: ResponderState, events: seq<ResponderEvent>)
    requires s.listener.None?
    requires forall i :: 0 <= i < |events| ==> events[i].IncomingAlert? || events[i].RoutingTimerFires?
    ensures Run(s, events).status == s.status
    ensures Run(s, events).listener.None?
    decreases |events|
  {
    if events != [] {
      NoListenerNoDelivery(Step(s, events[0]), events[1..]);
    }
  }

  /** Cleanup unregisters the listener, so later alerts and routing timers cannot deliver. */
  lemma CleanupSilencesAlerts(s: ResponderState, events: seq<ResponderEvent>)
    requires forall i :: 0 <= i < |events| ==> events[i].IncomingAlert? || events[i].RoutingTimerFires?
    ensures Run(CleanupListener(s), events).status == s.status
  {
    NoListenerNoDelivery(CleanupListener(s), events);
  }
}

=== FILE: signup.dfy ===
/**
 * The signup form's schema: four fields with their own rules, and a
 * cross-field rule that a partner must name a partner category, reported on
 * the partner-category field.
 */
module Signup {
  import opened Common

  /** The form fields, as issue paths. */
  datatype Field = EmailField | PasswordField | UserTypeField | PartnerTypeField

  datatype IssueKind =
    | InvalidEmail
    | PasswordTooShort
    | UserTypeRequired
    | InvalidEnumValue        // a choice outside its enumeration (the schema library's own message)
    | PartnerSubtypeMissing

  datatype Issue = Issue(path: Field, kind: IssueKind)

  /** The form's own message for an issue; `None` where the schema library supplies its default. */
  function Message(k: IssueKind): Option<string> {
    match k
    case InvalidEmail => Some("Please enter a valid email address.")
    case PasswordTooShort => Some("Password must be at least 8 characters.")
    case UserTypeRequired => Some("You need to select a user type.")
    case InvalidEnumValue => None
    case PartnerSubtypeMissing => Some("Please select a partner subtype.")
  }

  /** The raw form: the two choices are absent until picked. */
  datatype SignupForm = SignupForm(email: string, password: string, userType: Option<string>, partnerType: Option<string>)

  /** A form that passed the schema, with the choices read into their enumerations. */
  datatype SignupData = SignupData(email: string, password: string, userType: UserType, partnerType: Option<Category>)

  const MinPasswordLength := 8

  function EmailIssues(email: string, emailOk: string -> bool): seq<Issue> {
    if emailOk(email) then [] else [Issue(EmailField, InvalidEmail)]
  }

  function PasswordIssues(password: string): seq<Issue> {
    if Utf16Length(password) >= MinPasswordLength then [] else [Issue(PasswordField, PasswordTooShort)]
  }

  function UserTypeIssues(userType: Option<string>): seq<Issue> {
    match userType
    case None => [Issue(UserTypeField, UserTypeRequired)]
    case Some(s) => if ParseUserType(s).Some? then [] else [Issue(UserTypeField, InvalidEnumValue)]
  }

  function PartnerTypeIssues(partnerType: Option<string>): seq<Issue> {
    match partnerType
    case None => []
    case Some(s) => if ParseCategory(s).Some? then [] else [Issue(PartnerTypeField, InvalidEnumValue)]
  }

  /**
   * True when both choices were read into their enumerations. The string
   * rules (email, password length) only mark the form dirty; an unreadable
   * choice aborts the object, and the cross-field rule is then not run.
   */
  predicate ChoicesParsed(f: SignupForm) {
    && f.userType.Some? && ParseUserType(f.userType.value).Some?
    && (f.partnerType.None? || ParseCategory(f.partnerType.value).Some?)
  }

  function ParsedUserType(f: SignupForm): UserType
    requires ChoicesParsed(f)
  {
    ParseUserType(f.userType.value).value
  }

  function ParsedPartnerType(f: SignupForm): Option<Category>
    requires ChoicesParsed(f)
  {
    if f.partnerType.None? then None else ParseCategory(f.partnerType.value)
  }

  /** The cross-field rule: a partner names a partner category. */
  predicate PartnerRule(userType: UserType, partnerType: Option<Category>) {
    !(userType == Partner && partnerType.None?)
  }

  /** Every issue the schema reports for `f`: the field rules, then the cross-field rule when it runs. */
  function Issues(f: SignupForm, emailOk: string -> bool): (issues: seq<Issue>)
    ensures Issue(EmailField, InvalidEmail) in issues <==> !emailOk(f.email)
    ensures Issue(PasswordField, PasswordTooShort) in issues <==> Utf16Length(f.password) < MinPasswordLength
    ensures Issue(PartnerTypeField, PartnerSubtypeMissing) in issues <==>
              ChoicesParsed(f) && !PartnerRule(ParsedUserType(f), ParsedPartnerType(f))
    ensures (exists i :: i in issues && i.path == UserTypeField) <==> !(f.userType.Some? && ParseUserType(f.userType.value).Some?)
  {
    var fieldIssues :=
      EmailIssues(f.email, emailOk) + PasswordIssues(f.password)
      + UserTypeIssues(f.userType) + PartnerTypeIssues(f.partnerType);
    var refineIssues :=
      if ChoicesParsed(f) && !PartnerRule(ParsedUserType(f), ParsedPartnerType(f))
      then [Issue(PartnerTypeField, PartnerSubtypeMissing)]
      else [];
    fieldIssues + refineIssues
  }

  /** Everything the schema demands of a form, stated field by field. */
  predicate Acceptable(f: SignupForm, emailOk: string -> bool) {
    && emailOk(f.email)
    && Utf16Length(f.password) >= MinPasswordLength
    && f.userType.Some? && f.userType.value in {"public", "partner"}
    && (f.partnerType.None? || f.partnerType.value in {"male", "female", "trans"})
    && (f.userType.value == "partner" ==> f.partnerType.Some?)
  }

  /** Writes parsed data back as the form that carries it. */
  function Render(d: SignupData): SignupForm {
    SignupForm(
      d.email, d.password, Some(UserTypeName(d.userType)),
      match d.partnerType
      case None => None
      case Some(c) => Some(CategoryName(c)))
  }

  /** The schema: the parsed data, or every issue found. */
  function Validate(f: SignupForm, emailOk: string -> bool): (r: Result<SignupData, seq<Issue>>)
    ensures r.Success? <==> Acceptable(f, emailOk)
    ensures r.Success? ==> Render(r.value) == f
    ensures r.Failure? ==> |r.error| > 0
  {
    var issues := Issues(f, emailOk);
    if issues == [] then
      Success(SignupData(f.email, f.password, ParsedUserType(f), ParsedPartnerType(f)))
    else Failure(issues)
  }

  /** A partner without a partner category is refused, and the refusal is filed under the partner category. */
  lemma PartnerNeedsSubtype(f: SignupForm, emailOk: string -> bool)
    requires f.userType == Some("partner") && f.partnerType.None?
    ensures Validate(f, emailOk).Failure?
    ensures Issue(PartnerTypeField, PartnerSubtypeMissing) in Validate(f, emailOk).error
  {
  }

  /** A member of the public passes the cross-field rule with or without a partner category. */
  lemma PublicPassesPartnerRule(f: SignupForm, emailOk: string -> bool)
    requires f.userType == Some("public")
    ensures Issue(PartnerTypeField, PartnerSubtypeMissing) !in Issues(f, emailOk)
    ensures emailOk(f.email) && Utf16Length(f.password) >= MinPasswordLength &&
            (f.partnerType.None? || ParseCategory(f.partnerType.value).Some?) ==>
              Validate(f, emailOk).Success?
  {
  }

  /** A password shorter than eight code units is refused on the password field. */
  lemma ShortPasswordRefused(f: SignupForm, emailOk: string -> bool)
    requires Utf16Length(f.password) < MinPasswordLength
    ensures Validate(f, emailOk).Failure?
    ensures Issue(PasswordField, PasswordTooShort) in Validate(f, emailOk).error
  {
  }

  /** A user type other than the two choices is refused, and the cross-field rule is then not reported. */
  lemma UnknownUserTypeRefused(f: SignupForm, emailOk: string -> bool)
    requires f.userType.None? || f.userType.value !in {"public", "partner"}
    ensures Validate(f, emailOk).Failure?
    ensures exists i :: i in Validate(f, emailOk).error && i.path == UserTypeField
    ensures Issue(PartnerTypeField, PartnerSubtypeMissing) !in Validate(f, emailOk).error
  {
  }

  /** A partner category outside the enumeration is refused on the partner-category field. */
  lemma UnknownPartnerTypeRefused(f: SignupForm, emailOk: string -> bool)
    requires f.partnerType.Some? && f.partnerType.value !in {"male", "female", "trans"}
    ensures Validate(f, emailOk).Failure?
    ensures Issue(PartnerTypeField, InvalidEnumValue) in Validate(f, emailOk).error
  {
  }

  /** Data the schema admits survives a trip through the form unchanged. */
  lemma RenderThenValidate(d: SignupData, emailOk: string -> bool)
    requires emailOk(d.email) && Utf16Length(d.password) >= MinPasswordLength
    requires PartnerRule(d.userType, d.partnerType)
    ensures Validate(Render(d), emailOk) == Success(d)
  {
  }
}

=== FILE: wallet.dfy ===
/**
 * The wallet screen: the amount rule of its form, the atomic ledger step run
 * inside the store transaction, and the client flow around it (choose a kind,
 * stage a deposit, finalize, withdraw, and update the cached balance only
 * after the commit).
 */
module Wallet {
  import opened Common

  datatype TxKind = Deposit | Withdraw

  // ---------------------------------------------------------------------------
  // Amount rule of the form
  // ---------------------------------------------------------------------------

  /** The three number checks of the amount field, in declaration order. */
  datatype AmountIssue = NotWhole | NotPositive | BelowMinimum

  function AmountMessage(i: AmountIssue): string {
    match i
    case NotWhole => "Amount must be a whole number."
    case NotPositive => "Amount must be a positive number."
    case BelowMinimum => "Amount must be at least \U{20B9}1."
  }

  /** True when `x` has no fractional part. */
  predicate IsWhole(x: real) {
    x.Floor as real == x
  }

  /**
   * Every check of the amount rule that `x` fails. The checks are not
   * short-circuiting: each failing one contributes its own issue.
   */
  function AmountIssues(x: real): (issues: seq<AmountIssue>)
    ensures NotWhole in issues <==> !IsWhole(x)
    ensures NotPositive in issues <==> x <= 0.0
    ensures BelowMinimum in issues <==> x < 1.0
  {
    (if IsWhole(x) then [] else [NotWhole])
    + (if x > 0.0 then [] else [NotPositive])
    + (if x >= 1.0 then [] else [BelowMinimum])
  }

  /** Parses the amount field: a whole number of at least 1, or the list of broken rules. */
  function ValidateAmount(x: real): (r: Result<int, seq<AmountIssue>>)
    ensures r.Success? <==> IsWhole(x) && x >= 1.0
    ensures r.Success? ==> r.value as real == x && r.value >= 1
    ensures r.Failure? ==> |r.error| > 0
  {
    var issues := AmountIssues(x);
    if issues == [] then Success(x.Floor) else Failure(issues)
  }

  // ---------------------------------------------------------------------------
  // The store and the transaction body
  // ---------------------------------------------------------------------------

  /** A user document of the store: the balance and the profile fields beside it. */
  datatype UserDoc = UserDoc(walletBalance: Option<int>, userType: Option<UserType>, partnerType: Option<Category>)

  /** The users collection: a uid without an entry has no document. */
  type UserStore = map<string, UserDoc>

  /** A missing balance reads as 0. */
  function StoredBalance(d: UserDoc): int {
    d.walletBalance.GetOr(0)
  }

  datatype TxError = UserDocNotFound | InsufficientFunds

  function TxErrorMessage(e: TxError): string {
    match e
    case UserDocNotFound => "User document not found."
    case InsufficientFunds => "Insufficient funds for withdrawal."
  }

  /** The signed change a transaction of `kind` makes to a balance. */
  function Signed(kind: TxKind, amount: int): int {
    if kind == Deposit then amount else -amount
  }

  /**
   * The read-modify-write executed atomically by the store: read the user's
   * document, refuse when it is missing or when a withdrawal exceeds the
   * balance, otherwise write the new balance and nothing else.
   */
  function TransactionBody(store: UserStore, uid: string, amount: int, kind: TxKind): (r: Result<UserStore, TxError>)
    ensures r == Failure(UserDocNotFound) <==> uid !in store
    ensures r == Failure(InsufficientFunds) <==>
              uid in store && kind == Withdraw && StoredBalance(store[uid]) < amount
    ensures r.Success? ==> uid in store && r.value.Keys == store.Keys
    ensures r.Success? ==> forall u :: u in store && u != uid ==> r.value[u] == store[u]
    ensures r.Success? && kind == Deposit ==>
              r.value[uid] == store[uid].(walletBalance := Some(StoredBalance(store[uid]) + amount))
    ensures r.Success? && kind == Withdraw ==>
              amount <= StoredBalance(store[uid]) &&
              r.value[uid] == store[uid].(walletBalance := Some(StoredBalance(store[uid]) - amount))
  {
    if uid !in store then Failure(UserDocNotFound)
    else
      var doc := store[uid];
      var current := StoredBalance(doc);
      if kind == Withdraw && current < amount then Failure(InsufficientFunds)
      else Success(store[uid := doc.(walletBalance := Some(current + Signed(kind, amount)))])
  }

  /** Every stored balance (missing counts as 0) is non-negative. */
  ghost predicate NonNegativeBalances(store: UserStore) {
    forall u :: u in store ==> StoredBalance(store[u]) >= 0
  }

  /** Withdrawing exactly the balance is allowed and empties the wallet. */
  lemma WithdrawWholeBalance(store: UserStore, uid: string)
    requires uid in store
    ensures var r := TransactionBody(store, uid, StoredBalance(store[uid]), Withdraw);
            r.Success? && StoredBalance(r.value[uid]) == 0
  {
  }

  /** An accepted step keeps all balances non-negative when the amount is at least 0. */
  lemma TransactionKeepsNonNegative(store: UserStore, uid: string, amount: int, kind: TxKind)
    requires NonNegativeBalances(store) && amount >= 0
    ensures var r := TransactionBody(store, uid, amount, kind);
            r.Success? ==> NonNegativeBalances(r.value)
  {
    var r := TransactionBody(store, uid, amount, kind);
    if r.Success? {
      forall u | u in r.value ensures StoredBalance(r.value[u]) >= 0 {
        if u != uid {
          assert r.value[u] == store[u];
        }
      }
    }
  }

  /**
   * From a non-negative balance, a withdrawal undoes a deposit of the same
   * amount (from a negative one the deposit leaves too little to take back):
   * the balance is back
   * where it was (a missing balance comes back as an explicit 0), and every
   * other field and document is as before.
   */
  lemma DepositThenWithdraw(store: UserStore, uid: string, amount: int)
    requires uid in store && StoredBalance(store[uid]) >= 0
    ensures var d := TransactionBody(store, uid, amount, Deposit);
            d.Success? &&
            var w := TransactionBody(d.value, uid, amount, Withdraw);
            w.Success? && w.value == store[uid := store[uid].(walletBalance := Some(StoredBalance(store[uid])))]
  {
    var d := TransactionBody(store, uid, amount, Deposit);
    assert d.Success?;
    assert StoredBalance(d.value[uid]) == StoredBalance(store[uid]) + amount;
    var w := TransactionBody(d.value, uid, amount, Withdraw);
    assert w.Success?;
    var expected := store[uid := store[uid].(walletBalance := Some(StoredBalance(store[uid])))];
    assert w.value.Keys == expected.Keys;
    forall u | u in expected ensures w.value[u] == expected[u] {
      if u != uid {
        assert w.value[u] == d.value[u] == store[u];
      }
    }
  }

  // ---------------------------------------------------------------------------
  // The client flow
  // ---------------------------------------------------------------------------

  /**
   * The wallet screen's state: the signed-in user (whose `walletBalance` is the
   * locally cached balance), the kind chosen, and a deposit amount awaiting a
   * payment method.
   */
  datatype WalletClient = WalletClient(user: Option<User>, transactionType: Option<TxKind>, stagedAmount: Option<int>)

  /** The screen together with the users collection it writes. */
  datatype WalletWorld = WalletWorld(client: WalletClient, store: UserStore)

  /** The cached balance, missing read as 0. */
  function CachedBalance(u: User): int {
    u.walletBalance.GetOr(0)
  }

  /**
   * What the transaction reported: not started, committed with the new cached
   * balance, refused by its own body, or aborted by the store for a reason
   * outside the body (lost connection, denied permission, exhausted retries).
   */
  datatype TxOutcome = NotStarted | Committed(newBalance: int) | Refused(error: TxError) | Aborted

  datatype Processed = Processed(world: WalletWorld, outcome: TxOutcome)

  /**
   * One whole transaction run from the client: nothing at all without a
   * signed-in user; otherwise the atomic store step (which the store may abort
   * when `storeAvailable` is false), the cached balance moved by the same
   * signed amount only when the step committed, and the chosen kind and staged
   * amount cleared either way.
   */
  function ProcessTransaction(w: WalletWorld, amount: int, kind: TxKind, storeAvailable: bool): (p: Processed)
    ensures w.client.user.None? <==> p.outcome.NotStarted?
    ensures p.outcome.NotStarted? ==> p.world == w
    ensures p.outcome.Aborted? <==> w.client.user.Some? && !storeAvailable
    ensures !p.outcome.NotStarted? ==>
              p.world.client.transactionType.None? && p.world.client.stagedAmount.None? &&
              p.world.client.user.Some? &&
              p.world.client.user.value == w.client.user.value.(walletBalance := p.world.client.user.value.walletBalance)
    ensures p.outcome.Refused? || p.outcome.Aborted? ==>
              p.world.store == w.store && p.world.client.user == w.client.user
    ensures p.outcome.Refused? ==>
              Failure(p.outcome.error) == TransactionBody(w.store, w.client.user.value.uid, amount, kind)
    ensures p.outcome.Committed? ==>
              var uid := w.client.user.value.uid;
              && uid in w.store
              && Success(p.world.store) == TransactionBody(w.store, uid, amount, kind)
              && p.outcome.newBalance == CachedBalance(p.world.client.user.value)
              && CachedBalance(p.world.client.user.value) - CachedBalance(w.client.user.value)
                 == StoredBalance(p.world.store[uid]) - StoredBalance(w.store[uid])
  {
    match w.client.user
    case None => Processed(w, NotStarted)
    case Some(user) =>
      var cleared := w.client.(transactionType := None, stagedAmount := None);
      if !storeAvailable then Processed(WalletWorld(cleared, w.store), Aborted)
      else match TransactionBody(w.store, user.uid, amount, kind)
        case Failure(e) => Processed(WalletWorld(cleared, w.store), Refused(e))
        case Success(store') =>
          var newBalance := CachedBalance(user) + Signed(kind, amount);
          Processed(WalletWorld(cleared.(user := Some(user.(walletBalance := Some(newBalance)))), store'),
                    Committed(newBalance))
  }

  /** First step of a deposit: remember the amount; nothing is written. */
  function HandleDepositInitiation(w: WalletWorld, amount: int): (w': WalletWorld)
    ensures w'.store == w.store && w'.client.user == w.client.user
    ensures w'.client.transactionType == w.client.transactionType
    ensures w'.client.stagedAmount == Some(amount)
  {
    w.(client := w.client.(stagedAmount := Some(amount)))
  }

  /** Second step of a deposit: run the staged amount as a deposit, or do nothing when none is staged. */
  function HandleFinalizeDeposit(w: WalletWorld, storeAvailable: bool): (w': WalletWorld)
    ensures w.client.stagedAmount.None? ==> w' == w
    ensures w.client.stagedAmount.Some? ==>
              w' == ProcessTransaction(w, w.client.stagedAmount.value, Deposit, storeAvailable).world
    ensures w.client.stagedAmount.Some? && w.client.user.Some? ==>
              w'.client.stagedAmount.None? && w'.client.transactionType.None?
    ensures w.client.stagedAmount.Some? && w.client.user.Some? && storeAvailable &&
            w.client.user.value.uid in w.store ==>
              var uid := w.client.user.value.uid;
              uid in w'.store &&
              StoredBalance(w'.store[uid]) == StoredBalance(w.store[uid]) + w.client.stagedAmount.value
  {
    match w.client.stagedAmount
    case None => w
    case Some(amount) => ProcessTransaction(w, amount, Deposit, storeAvailable).world
  }

  /** A withdrawal runs at once when a user is signed in. */
  function HandleWithdrawal(w: WalletWorld, amount: int, storeAvailable: bool): (w': WalletWorld)
    ensures w.client.user.None? ==> w' == w
    ensures w.client.user.Some? ==> w' == ProcessTransaction(w, amount, Withdraw, storeAvailable).world
    ensures w.client.user.Some? ==> w'.client.stagedAmount.None? && w'.client.transactionType.None?
    ensures w.client.user.Some? && storeAvailable && w.client.user.value.uid in w.store &&
            amount <= StoredBalance(w.store[w.client.user.value.uid]) ==>
              var uid := w.client.user.value.uid;
              uid in w'.store && StoredBalance(w'.store[uid]) == StoredBalance(w.store[uid]) - amount
  {
    if w.client.user.None? then w else ProcessTransaction(w, amount, Withdraw, storeAvailable).world
  }

  /**
   * A validated amount is dispatched on the chosen kind: a deposit is only
   * staged, a withdrawal runs; without a kind nothing happens.
   */
  function OnSubmit(w: WalletWorld, amount: int, storeAvailable: bool): (w': WalletWorld)
    ensures w.client.transactionType.None? ==> w' == w
    ensures w.client.transactionType == Some(Deposit) ==>
              w'.store == w.store && w'.client == w.client.(stagedAmount := Some(amount))
    ensures w.client.transactionType == Some(Withdraw) && w.client.user.None? ==> w' == w
    ensures w.client.transactionType == Some(Withdraw) && w.client.user.Some? ==>
              w' == ProcessTransaction(w, amount, Withdraw, storeAvailable).world
  {
    match w.client.transactionType
    case None => w
    case Some(Deposit) => HandleDepositInitiation(w, amount)
    case Some(Withdraw) => HandleWithdrawal(w, amount, storeAvailable)
  }

  /** What the user can do on the wallet screen. */
  datatype WalletEvent =
    | ChooseKind(kind: TxKind)       // the Deposit / Withdraw buttons
    | LeaveForm                      // the Cancel button under the amount form
    | SubmitAmount(amount: real, storeAvailable: bool)   // submit the amount form
    | FinalizeDeposit(storeAvailable: bool)             // pick a payment method in the deposit dialog
    | DismissDepositDialog           // close the deposit dialog

  /**
   * One event. A control that is not on screen does nothing: the kind buttons
   * show only while no kind is chosen, the form only once one is, and while
   * the deposit dialog is open it covers the form.
   */
  function Step(w: WalletWorld, e: WalletEvent): (w': WalletWorld)
    ensures w'.store.Keys == w.store.Keys
    ensures !(e.SubmitAmount? || e.FinalizeDeposit?) || w.client.user.None? ==> w'.store == w.store
    ensures w'.client.user.None? <==> w.client.user.None?
    ensures e.SubmitAmount? && (w.client.transactionType.None? || w.client.stagedAmount.Some?) ==> w' == w
    ensures e.SubmitAmount? && ValidateAmount(e.amount).Failure? ==> w' == w
    ensures e.ChooseKind? ==>
              w'.store == w.store &&
              w'.client == (if w.client.transactionType.None? then w.client.(transactionType := Some(e.kind)) else w.client)
    ensures e.LeaveForm? ==>
              w'.store == w.store &&
              (w.client.stagedAmount.None? ==> w'.client == w.client.(transactionType := None)) &&
              (w.client.stagedAmount.Some? ==> w' == w)
    ensures e.SubmitAmount? && w.client.transactionType.Some? && w.client.stagedAmount.None? &&
            ValidateAmount(e.amount).Success? ==>
              w' == OnSubmit(w, ValidateAmount(e.amount).value, e.storeAvailable)
    ensures e.FinalizeDeposit? ==> w' == HandleFinalizeDeposit(w, e.storeAvailable)
    ensures e.DismissDepositDialog? ==> w'.store == w.store && w'.client == w.client.(stagedAmount := None)
  {
    var c := w.client;
    match e
    case ChooseKind(kind) =>
      if c.transactionType.None? then w.(client := c.(transactionType := Some(kind))) else w
    case LeaveForm =>
      if c.transactionType.Some? && c.stagedAmount.None? then w.(client := c.(transactionType := None)) else w
    case SubmitAmount(x, ok) =>
      if c.transactionType.None? || c.stagedAmount.Some? then w
      else (match ValidateAmount(x)
        case Failure(_) => w
        case Success(amount) => OnSubmit(w, amount, ok))
    case FinalizeDeposit(ok) => HandleFinalizeDeposit(w, ok)
    case DismissDepositDialog => w.(client := c.(stagedAmount := None))
  }

  function Run(w: WalletWorld, events: seq<WalletEvent>): WalletWorld
    decreases |events|
  {
    if events == [] then w else Run(Step(w, events[0]), events[1..])
  }

  /** The cached balance agrees with the stored one whenever the user's document exists. */
  ghost predicate CacheCoherent(w: WalletWorld) {
    w.client.user.Some? && w.client.user.value.uid in w.store ==>
      CachedBalance(w.client.user.value) == StoredBalance(w.store[w.client.user.value.uid])
  }

  /**
   * What every reachable wallet screen satisfies: a staged amount is a valid
   * deposit amount, no stored balance is negative, and the cache is coherent.
   */
  ghost predicate WalletInv(w: WalletWorld) {
    && (w.client.stagedAmount.Some? ==>
          w.client.stagedAmount.value >= 1 && w.client.transactionType == Some(Deposit))
    && NonNegativeBalances(w.store)
    && CacheCoherent(w)
  }

  lemma ProcessPreservesInv(w: WalletWorld, amount: int, kind: TxKind, storeAvailable: bool)
    requires WalletInv(w) && amount >= 1
    ensures WalletInv(ProcessTransaction(w, amount, kind, storeAvailable).world)
  {
    var p := ProcessTransaction(w, amount, kind, storeAvailable);
    if p.outcome.Committed? {
      TransactionKeepsNonNegative(w.store, w.client.user.value.uid, amount, kind);
    }
  }

  /** Every event keeps the wallet invariant, and no event touches another user's document. */
  lemma StepPreservesInv(w: WalletWorld, e: WalletEvent)
    requires WalletInv(w)
    ensures WalletInv(Step(w, e))
    ensures forall u :: u in w.store && (w.client.user.None? || u != w.client.user.value.uid) ==>
              u in Step(w, e).store && Step(w, e).store[u] == w.store[u]
    ensures Step(w, e).store.Keys == w.store.Keys
  {
    var c := w.client;
    match e
    case ChooseKind(_) =>
    case LeaveForm =>
    case SubmitAmount(x, ok) =>
      if c.transactionType.Some? && c.stagedAmount.None? && ValidateAmount(x).Success? {
        var amount := ValidateAmount(x).value;
        if c.transactionType == Some(Withdraw) && c.user.Some? {
          ProcessPreservesInv(w, amount, Withdraw, ok);
        }
      }
    case FinalizeDeposit(ok) =>
      if c.stagedAmount.Some? {
        ProcessPreservesInv(w, c.stagedAmount.value, Deposit, ok);
      }
    case DismissDepositDialog =>
  }

  /** From any state meeting the invariant, every sequence of events keeps it. */
  lemma {:induction false} RunPreservesInv(w: WalletWorld, events: seq<WalletEvent>)
    requires WalletInv(w)
    ensures WalletInv(Run(w, events))
    ensures Run(w, events).store.Keys == w.store.Keys
    decreases |events|
  {
    if events != [] {
      StepPreservesInv(w, events[0]);
      RunPreservesInv(Step(w, events[0]), events[1..]);
    }
  }

  /**
   * The cache is moved by the signed amount, not read back from the store:
   * every commit keeps the gap between the cached and the stored balance, so
   * a cache that was already stale (another device wrote the balance) stays
   * exactly as stale.
   */
  lemma StaleCacheStaysStale(w: WalletWorld, amount: int, kind: TxKind, storeAvailable: bool)
    ensures var p := ProcessTransaction(w, amount, kind, storeAvailable);
            p.outcome.Committed? ==>
              var uid := w.client.user.value.uid;
              uid in w.store && uid in p.world.store &&
              CachedBalance(p.world.client.user.value) - StoredBalance(p.world.store[uid])
              == CachedBalance(w.client.user.value) - StoredBalance(w.store[uid])
  {
  }

  /**
   * The submit handler does not wait for a withdrawal, so the form can be
   * submitted again while the first transaction is still running. The second
   * run starts from the same screen state, so both commits compute the cache
   * from the same old balance: the store loses the amount twice, the cache
   * only once.
   */
  lemma {:induction false} OverlappingWithdrawalsDesyncCache(w: WalletWorld, amount: int)
    requires w.client.user.Some? && w.client.user.value.uid in w.store && CacheCoherent(w)
    requires 1 <= amount && 2 * amount <= StoredBalance(w.store[w.client.user.value.uid])
    ensures var uid := w.client.user.value.uid;
            var first := ProcessTransaction(w, amount, Withdraw, true);
            var second := ProcessTransaction(WalletWorld(w.client, first.world.store), amount, Withdraw, true);
            && second.outcome.Committed?
            && uid in second.world.store
            && StoredBalance(second.world.store[uid]) == StoredBalance(w.store[uid]) - 2 * amount
            && CachedBalance(second.world.client.user.value) == StoredBalance(w.store[uid]) - amount
            && !CacheCoherent(second.world)
  {
    var uid := w.client.user.value.uid;
    var first := ProcessTransaction(w, amount, Withdraw, true);
    assert first.outcome.Committed?;
    assert StoredBalance(first.world.store[uid]) == StoredBalance(w.store[uid]) - amount;
    var w2 := WalletWorld(w.client, first.world.store);
    var second := ProcessTransaction(w2, amount, Withdraw, true);
    assert TransactionBody(w2.store, uid, amount, Withdraw).Success?;
    assert second.outcome.Committed?;
  }

  /**
   * The two-step deposit through the screen: choose Deposit, submit a whole
   * amount (staged only), then pick a payment method. The stored balance and
   * the cache both grow by the amount, and the form ends cleared.
   */
  lemma TwoStepDeposit(w: WalletWorld, x: nat)
    requires w.client.user.Some? && w.client.user.value.uid in w.store
    requires w.client.transactionType.None? && w.client.stagedAmount.None? && x >= 1
    ensures var uid := w.client.user.value.uid;
            var w' := Run(w, [ChooseKind(Deposit), SubmitAmount(x as real, true), FinalizeDeposit(true)]);
            && uid in w'.store && w'.client.user.Some?
            && StoredBalance(w'.store[uid]) == StoredBalance(w.store[uid]) + x
            && CachedBalance(w'.client.user.value) == CachedBalance(w.client.user.value) + x
            && w'.client.transactionType.None? && w'.client.stagedAmount.None?
  {
    var w1 := Step(w, ChooseKind(Deposit));
    assert ValidateAmount(x as real) == Success(x);
    var w2 := Step(w1, SubmitAmount(x as real, true));
    assert w2.client.stagedAmount == Some(x) && w2.store == w.store && w2.client.user == w.client.user;
    var w3 := Step(w2, FinalizeDeposit(true));
    assert Run(w2, [FinalizeDeposit(true)]) == w3;
    assert Run(w1, [SubmitAmount(x as real, true), FinalizeDeposit(true)]) == w3;
  }

  /**
   * A withdrawal through the screen: choose Withdraw and submit a whole
   * amount the balance covers. The stored balance and the cache both drop by
   * the amount, and the form ends cleared.
   */
  lemma WithdrawThroughScreen(w: WalletWorld, x: nat)
    requires w.client.user.Some? && w.client.user.value.uid in w.store
    requires w.client.transactionType.None? && w.client.stagedAmount.None?
    requires 1 <= x <= StoredBalance(w.store[w.client.user.value.uid])
    ensures var uid := w.client.user.value.uid;
            var w' := Run(w, [ChooseKind(Withdraw), SubmitAmount(x as real, true)]);
            && uid in w'.store && w'.client.user.Some?
            && StoredBalance(w'.store[uid]) == StoredBalance(w.store[uid]) - x
            && CachedBalance(w'.client.user.value) == CachedBalance(w.client.user.value) - x
            && w'.client.transactionType.None? && w'.client.stagedAmount.None?
  {
    var w1 := Step(w, ChooseKind(Withdraw));
    assert ValidateAmount(x as real) == Success(x);
    var w2 := Step(w1, SubmitAmount(x as real, true));
    assert Run(w1, [SubmitAmount(x as real, true)]) == w2;
  }
}
